=== FILE: README.md ===
# amaze: robot build-data codec and controller archives, in Dafny

This project models two self-contained pieces of the amaze maze-navigation
simulator and proves properties of them.

1. **`Robot.BuildData`**, the agent's configuration record (input type,
   output type, vision size, controller key, controller data). It has a
   compact string code: a shorthand letter (`D`, `H`, `C`) or an
   input/output letter pair (`DD`, `CD`, `CC`), then optional vision
   digits. The model covers `from_string`, `to_string`, `from_controller`
   and the lower-casing done by `__post_init__` (module `Robot`). The
   letter tables come from the enum names (module `Types`).
2. **The controller registry and archive protocol**: `CONTROLLERS`,
   `check_types`, `controller_factory`, `save` and `load` (module
   `Control`). A zip archive is a map from entry name to entry content.
   `infos` is a JSON object, modelled as a map. Each controller kind's own
   entries are opaque. The `.zip` suffix rule of `pathlib` is in module
   `Paths`.

Every Python exception is a `Failure` carrying a reason. This covers a
failed `assert`, an `IndexError`, a `KeyError`, a `ValueError` and the
`TypeError` of `dict.update(None)`. The checks run in the same order as in
the source, so the first violated check names the reason.

All values are immutable. `save` copies the controller's `infos` before
merging, so the controller's own map stays as it was. In the model this
holds by construction: `Control.Save` returns a new archive and changes no
controller.

Supporting modules: `Wrappers` (Option/Result), `Decimal` (`isdigit`,
`int()` and `str()` on ASCII decimal numerals), `AsciiCase` (`str.lower`)
and `JsonValues`.

The `from_string` docstring (src/amaze/simu/robot.py:39-56) gives the
format `IO[V]` or `S[V]`. The model follows the code where the two differ:
- `from_string("D")` fails, because `robot[1]` is read unconditionally.
  The docstring's `S[V]` suggests a lone shorthand letter is accepted.
- `from_string("C9")` keeps the default vision 15. The chained comparison
  `ix < len(robot) > 2` needs more than two characters. The docstring's
  `S[V]` suggests a vision of 9.

Other behaviour of the code worth knowing:
- `from_controller` checks neither the hybrid combination nor the parity
  of the vision, unlike `from_string` (`Robot.FromControllerCanBeHybrid`).
- `save` needs a `pathlib.Path`. A `str` path fails on `.suffix`, even
  though the signature admits `str`.
- `save` with the default `infos=None` fails.

## Model

| member | source | states |
|---|---|---|
| Types.InputOfLetter | src/amaze/simu/robot.py:26-29 | the letter-to-input table is the exact inverse of "first letter of the enum name": a letter maps to a type iff that type's letter is it |
| Types.OutputOfLetter | src/amaze/simu/robot.py:27-30 | the same inversion for output types |
| Robot.PostInit | src/amaze/simu/robot.py:32-34 | after construction a named controller key is the old key lower-cased: same length, no upper-case letter, and each character equal to the old one up to case; Unset stays Unset; no other field changes; an already lower-case record is unchanged |
| Robot.PostInitIdempotent | src/amaze/simu/robot.py:32-34 | post-initialising twice equals post-initialising once |
| Robot.DefaultIsInitialised | src/amaze/simu/robot.py:19-24 | the record `cls()` builds is a fixed point of `__post_init__` |
| Robot.PairTypes | src/amaze/simu/robot.py:72-78 | a pair code succeeds iff both letters are in their tables and do not form the hybrid pair, and then yields the types whose letters they are; a first letter outside the table (`H`) is a lookup failure; `D`,`C` fails with the hybrid-mode error |
| Robot.FromString | src/amaze/simu/robot.py:57-84 | codes shorter than 2 fail; a success has a well-formed code, a non-hybrid pair, a positive odd vision, the default controller, and the default vision for discrete input |
| Robot.FromStringAccepts | src/amaze/simu/robot.py:59-83 | `from_string` succeeds iff the code is well formed, is not `H` followed by a letter, is not `DC`, and has odd vision digits whenever they are read (continuous input, more than two characters) |
| Robot.FromStringDecodes | src/amaze/simu/robot.py:57-84 | for every input, `from_string` returns a record exactly when the code is accepted, and that record has the types the code names (shorthand table when a digit follows the first letter, letter tables otherwise) and the vision its digits give for continuous input longer than two characters, 15 otherwise |
| Robot.DecodingExamples | src/amaze/simu/robot.py:63-84 | `C13` gives (CONTINUOUS, CONTINUOUS, 13), `H13` gives (CONTINUOUS, DISCRETE, 13) and `CD007` gives vision 7 |
| Robot.ToString | src/amaze/simu/robot.py:114-121 | the code is the input letter, the output letter, then the decimal vision iff the input is CONTINUOUS |
| Robot.FromStringToString | src/amaze/simu/robot.py:57-121 | round trip: for a non-hybrid record whose continuous vision is positive and odd, parsing its code gives its types back; vision is kept for CONTINUOUS input and reverts to 15 for DISCRETE input |
| Robot.FromStringCanonical | src/amaze/simu/robot.py:57-121 | every record `from_string` returns is reproduced exactly by `from_string(to_string(...))` |
| Robot.ToStringFromString | src/amaze/simu/robot.py:57-121 | the other direction of the round trip: a canonical code (explicit letter pair, vision digits exactly for continuous input, no leading zero) parses, and writing the result back gives the same text |
| Robot.HybridPairFails | src/amaze/simu/robot.py:74-78 | `DC` followed by any digits fails with the hybrid-mode error |
| Robot.HPairFails | src/amaze/simu/robot.py:72 | `H` followed by a type letter fails at the input-table lookup |
| Robot.ShortShorthandKeepsVision | src/amaze/simu/robot.py:63-80 | a two-character shorthand maps D/H/C to DD/CD/CC and keeps the default vision 15 whatever its digit |
| Robot.DiscreteIgnoresDigits | src/amaze/simu/robot.py:63-80 | a well-formed code with discrete input (`D…`, `DD…`) yields the default record: its digits are ignored |
| Robot.EvenVisionFails | src/amaze/simu/robot.py:80-83 | when the vision digits are read, an even value (0 included) fails with "Retina size must be odd" |
| Robot.FromController | src/amaze/simu/robot.py:96-112 | succeeds iff exactly one input and one output type are reported; more than one is an ambiguity error, none an index error (inputs checked first); the single types are taken; the vision changes only for CONTINUOUS input with a reported vision |
| Robot.FromControllerCanBeHybrid | src/amaze/simu/robot.py:96-112 | a controller reporting (DISCRETE, CONTINUOUS) yields a record whose own code `from_string` rejects as hybrid |
| Decimal.IntToString | src/amaze/simu/robot.py:120 | `str(v)` is non-empty; for non-negative v it is all digits and reads back as v; for negative v it is a minus sign followed by digits that read back as -v |
| Decimal.NatToDecimal | src/amaze/simu/robot.py:120 | the model of `str(n)`, with no digit limit: for a natural number, a non-empty digit string without a leading zero, with one digit exactly when n < 10 |
| Decimal.ParseNatToDecimal | src/amaze/simu/robot.py:81 | in the model with no digit limit, reading back a written numeral gives the number: `ParseDecimal(NatToDecimal(n)) == n` for every natural n |
| Decimal.NatToDecimalParse | src/amaze/simu/robot.py:81 | in the model with no digit limit, writing back a numeral that was read gives the same text: `NatToDecimal(ParseDecimal(s)) == s` for every digit string without a leading zero |
| AsciiCase.LowerIdempotent | src/amaze/simu/controllers/control.py:37 | lower-casing twice equals lower-casing once |
| AsciiCase.Lower | src/amaze/simu/robot.py:34 | the ASCII model of `str.lower()`: keeps the length, maps each character to its ASCII lower-case form, and leaves no upper-case ASCII letter |
| Paths.WithZipSuffix | src/amaze/simu/controllers/control.py:53 | `with_suffix(".zip")` fails exactly on an empty name; otherwise it keeps the parent and the stem and the suffix becomes `.zip` |
| Paths.Suffix | src/amaze/simu/controllers/control.py:52 | `Path.suffix` is empty or a dot followed by one or more characters containing no further dot |
| Paths.Stem | src/amaze/simu/controllers/control.py:53 | `Path.stem` followed by `Path.suffix` is the whole name |
| Paths.NormaliseZip | src/amaze/simu/controllers/control.py:52-53 | the normalised path always has suffix `.zip`, keeps parent and stem, and a path whose suffix is already `.zip` is unchanged (a file named `.zip` has no suffix and becomes `.zip.zip`) |
| Paths.NormaliseZipIdempotent | src/amaze/simu/controllers/control.py:52-53 | normalising twice equals normalising once |
| Paths.ZipSuffixOf | src/amaze/simu/controllers/control.py:53 | appending `.zip` to a non-empty stem gives suffix `.zip` and the same stem |
| Control.Lookup | src/amaze/simu/controllers/control.py:37 | `CONTROLLERS[key]` is absent iff no item has that key, and otherwise is the class of an item with that key |
| Control.ReverseLookup | src/amaze/simu/controllers/control.py:47-50 | the reverse map is absent iff no item has the class; otherwise it gives the last key registered for the class |
| Control.ControllersDistinct | src/amaze/simu/controllers/control.py:15-19 | the built-in registry holds each key once |
| Control.ReverseLookupInverse | src/amaze/simu/controllers/control.py:47-50 | in a registry with distinct keys, the key found by reverse lookup maps back to the same class |
| Control.CheckTypes | src/amaze/simu/controllers/control.py:22-32 | returns true iff the robot's input type is among the accepted inputs and its output type among the accepted outputs; otherwise it fails naming the offending type and the accepted list, inputs first |
| Control.FromControllerPassesCheck | src/amaze/simu/controllers/control.py:22-32 | a record built by `from_controller` passes `check_types` against the same reported types |
| Control.ControllerFactory | src/amaze/simu/controllers/control.py:35-37 | a success constructs a class registered under the lower-cased kind, with the given arguments; a failure names the lower-cased kind, which no item has |
| Control.FactoryIgnoresCase | src/amaze/simu/controllers/control.py:37 | a kind and its lower-cased form give the same result |
| Control.FactoryMissesUpperCaseKeys | src/amaze/simu/controllers/control.py:37 | a registered key containing an upper-case letter cannot be reached through the factory, unless another key maps to the same class |
| Control.FactoryFindsBuiltins | src/amaze/simu/controllers/control.py:15-37 | any capitalisation of "random", "keyboard" or "tabular" constructs the matching built-in class |
| Control.Merge | src/amaze/simu/controllers/control.py:59-60 | the merged infos have the keys of both maps; a caller key takes the caller's value, and any other key keeps the controller's value |
| Control.WriteArchive | src/amaze/simu/controllers/control.py:55-62 | the archive holds the controller's entries plus `controller_class` and `infos`; `infos` is the given document; the class name is readable unless the payload overwrote it |
| Control.SavePath | src/amaze/simu/controllers/control.py:52-53 | a `str` path fails; a `Path` is normalised to a `.zip` suffix with the same parent and stem, and is unchanged if its suffix is already `.zip` |
| Control.Save | src/amaze/simu/controllers/control.py:40-66 | succeeds iff the class is registered, the path can be normalised and infos is given (failures in that order); the returned path is the normalised one; the stored class name is the last key registered for the controller's class; the stored infos are the merge with the caller winning |
| Control.Load | src/amaze/simu/controllers/control.py:69-81 | a missing class entry and an unknown class name fail; otherwise the load succeeds iff an `infos` object is present; the loaded kind is registered under the stored name and its infos are the archive's `infos` |
| Control.SaveLoadRoundTrip | src/amaze/simu/controllers/control.py:40-81 | loading what `save` wrote gives a controller with the same kind and the same own entries, and with infos equal to the controller's infos merged with the caller's (caller wins) |
| Control.FactoryKindSurvivesArchive | src/amaze/simu/controllers/control.py:35-81 | a controller of the kind the factory resolved is saved successfully and loads back with the same kind |

## Left out

- Robot kinematics (`reset`, `cell`, `next_position`, `to_dict`): floating-point integration over `Pos`/`Vec`. Those types are not part of this model.
- The stable-baselines3 controller wrapper: its behaviour lives in external libraries.
- File and zip I/O, JSON text encoding and the `logger` calls. An archive is a map from entry name to content. `load` takes that map, not a path. A JSON document is stored and read back as a value, which is exact for the values of `JsonValues.Json`. Python's own round trip is not exact in general: tuples come back as lists, and NaN compares unequal to itself. Values `json.dumps` cannot serialise are not modelled.
- JSON numbers are integers only (`JsonValues.Json`). Floating-point `infos` values, such as a performance score, are not modelled.
- The partial archive that `save` leaves on disk when `infos` is None. The model reports only the failure.
- Each kind's `save_to_archive`, `load_from_archive` and constructor. `Control.KindLoad` stands in for `load_from_archive`. It assumes a kind reads back exactly the entries it wrote. A kind that also reads `infos` itself is not modelled; `load` replaces `infos` afterwards in any case. `Control.ControllerFactory` returns the class and its arguments, not a constructed instance.
- Control.Load: requires the `infos` entry to be a JSON object. Python would attach any JSON value as `infos`.
- Control.Load: an entry read as the class name must be text. A byte entry that happens to decode as UTF-8 is reported as malformed.
- Robot.FromString: CPython's limit on the number of digits in int/str conversions (4300 by default since 3.11 and the matching security releases) is not modelled. Above that, `int()` raises `ValueError`, but the model parses the vision. The same applies to `Robot.FromStringAccepts`, `Robot.FromStringDecodes` and the round-trip lemmas.
- Robot.ToString: CPython's digit limit is not modelled. `str(vision)` raises for a vision of 10^4300 or more, but the model always returns a code.
- Decimal.IntToString: `str(v)` is modelled without CPython's default 4300-digit limit.
- Decimal.NatToDecimal: `str(n)` is modelled without CPython's digit limit. CPython raises `ValueError` for n of 10^4300 or more.
- Decimal.ParseNatToDecimal: holds of the model only. Under CPython's default digit limit, `int(str(n))` raises for n of 10^4300 or more.
- Decimal.NatToDecimalParse: holds of the model only. Under CPython's default digit limit, `str(int(s))` raises for s of more than 4300 digits.
- AsciiCase.Lower: lowers ASCII letters only. Python also lowers other letters, and a few change length (`"İ".lower()` has two characters). Its length clause is a property of the ASCII model.
- Robot.FromString: `isdigit`, `isalpha` and `int()` are modelled for ASCII only. Python also accepts other Unicode digits here.
- Control.ControllerFactory: `str.lower` is modelled for ASCII letters only.
- Robot.PostInit: `str.lower` is modelled for ASCII letters only. Python also lower-cases other letters (`"RANDÖM".lower() == "randöm"`). A few characters change length: `"İ".lower()` has two characters. The "same length" clause is a property of the ASCII model.
- Paths.NormaliseZip: the suffix is found from the last dot of the final name component, which must be neither the name's first nor its last character. Other `pathlib` rules are not modelled: separators, dotfile corner cases across Python versions, and validation of the suffix argument.
- Registration of extension kinds into `CONTROLLERS` at run time. The registry is a parameter, and `Control.Controllers` holds the built-in entries.

=== FILE: ascii_case.dfy ===
/** Python's `str.lower()`, restricted to the ASCII letters. */
module AsciiCase {

  predicate IsUpper(c: char) {
    'A' <= c <= 'Z'
  }

  function LowerChar(c: char): (d: char)
    ensures !IsUpper(d)
    ensures IsUpper(c) ==> d as int == c as int + 32
    ensures !IsUpper(c) ==> d == c
  {
    if IsUpper(c) then (c as int + 32) as char else c
  }

  /** True when lowering would change nothing. */
  predicate IsLower(s: string) {
    forall i :: 0 <= i < |s| ==> !IsUpper(s[i])
  }

  function Lower(s: string): (r: string)
    ensures |r| == |s|
    ensures forall i :: 0 <= i < |s| ==> r[i] == LowerChar(s[i])
    ensures IsLower(r)
  {
    if |s| == 0 then "" else [LowerChar(s[0])] + Lower(s[1..])
  }

  /** Lower-casing twice is lower-casing once. */
  lemma LowerIdempotent(s: string)
    ensures Lower(Lower(s)) == Lower(s)
  {
  }
}

=== FILE: control.dfy ===
/** The controller registry and the archive protocol of `save` and `load`
    (src/amaze/simu/controllers/control.py). */
module Control {
  import opened Wrappers
  import opened AsciiCase
  import opened JsonValues
  import opened Types
  import opened Robot
  import opened Paths

  /** The concrete controller classes. The three built-in kinds are named;
      kinds registered by extensions are told apart by an identifier. */
  datatype ControllerClass =
    | RandomController
    | KeyboardController
    | TabularController
    | ExtensionClass(id: string)

  /** The `CONTROLLERS` dict as its list of items, in insertion order. */
  type Registry = seq<(string, ControllerClass)>

  /** A dict never holds a key twice. */
  predicate DistinctKeys(reg: Registry) {
    forall i, j :: 0 <= i < j < |reg| ==> reg[i].0 != reg[j].0
  }

  const Controllers: Registry := [
    ("random", RandomController),
    ("keyboard", KeyboardController),
    ("tabular", TabularController)
  ]

  /** Why a registry or archive operation fails. */
  datatype ControlError =
    | UnknownKind(key: string)                                        // KeyError on CONTROLLERS[...]
    | IncompatibleInput(input: InputType, inputs: seq<InputType>)     // first assertion of check_types
    | IncompatibleOutput(output: OutputType, outputs: seq<OutputType>)
    | UnregisteredClass(cls: ControllerClass)                         // "Unknown controller type"
    | PathWithoutSuffix                                               // a `str` path has no `.suffix`
    | EmptyPathName                                                   // ValueError from `with_suffix`
    | InfosNotMapping                                                 // `dict.update(None)`
    | MissingEntry(entry: string)                                     // KeyError from `archive.read`
    | MalformedEntry(entry: string)

  // ---------------------------------------------------------------------------
  // Registry lookups
  // ---------------------------------------------------------------------------

  /** `CONTROLLERS[key]`. */
  function Lookup(reg: Registry, key: string): (r: Option<ControllerClass>)
    ensures r.None? <==> forall i :: 0 <= i < |reg| ==> reg[i].0 != key
    ensures r.Some? ==> (key, r.value) in reg
  {
    if |reg| == 0 then None
    else if reg[0].0 == key then Some(reg[0].1)
    else Lookup(reg[1..], key)
  }

  /** `{t: n for n, t in CONTROLLERS.items()}[cls]`: later items overwrite
      earlier ones, so the last key registered for the class is found. */
  function ReverseLookup(reg: Registry, cls: ControllerClass): (r: Option<string>)
    ensures r.None? <==> forall i :: 0 <= i < |reg| ==> reg[i].1 != cls
    ensures r.Some? ==> exists i :: 0 <= i < |reg| && reg[i] == (r.value, cls) &&
                                    forall j :: i < j < |reg| ==> reg[j].1 != cls
  {
    if |reg| == 0 then None
    else if reg[|reg| - 1].1 == cls then Some(reg[|reg| - 1].0)
    else ReverseLookup(reg[..|reg| - 1], cls)
  }

  /** The built-in registry holds each key once. */
  lemma ControllersDistinct()
    ensures DistinctKeys(Controllers)
  {
  }

  /** The key found by reverse lookup maps back to the same class. */
  lemma ReverseLookupInverse(reg: Registry, cls: ControllerClass)
    requires DistinctKeys(reg) && ReverseLookup(reg, cls).Some?
    ensures Lookup(reg, ReverseLookup(reg, cls).value) == Some(cls)
  {
  }

  // ---------------------------------------------------------------------------
  // check_types and controller_factory
  // ---------------------------------------------------------------------------

  /** `check_types`: the robot's input type must be one the controller class
      accepts, then its output type; the first mismatch is reported. */
  function CheckTypes(caps: Capabilities, robot: BuildData): (r: Result<bool, ControlError>)
    ensures r.Success? <==> robot.inputs in caps.inputs && robot.outputs in caps.outputs
    ensures r.Success? ==> r.value
    ensures robot.inputs !in caps.inputs ==> r == Failure(IncompatibleInput(robot.inputs, caps.inputs))
    ensures robot.inputs in caps.inputs && robot.outputs !in caps.outputs ==>
              r == Failure(IncompatibleOutput(robot.outputs, caps.outputs))
  {
    if robot.inputs !in caps.inputs then Failure(IncompatibleInput(robot.inputs, caps.inputs))
    else if robot.outputs !in caps.outputs then Failure(IncompatibleOutput(robot.outputs, caps.outputs))
    else Success(true)
  }

  /** A record built from a controller passes the type check against that
      controller's own reported types. */
  lemma FromControllerPassesCheck(caps: Capabilities)
    requires FromController(caps).Success?
    ensures CheckTypes(caps, FromController(caps).value) == Success(true)
  {
  }

  /** The call `controller_factory` makes: the class found in the registry,
      applied to the keyword arguments. Running the class's constructor is
      that kind's own business. */
  datatype Construction = Construction(kind: ControllerClass, args: JsonObject)

  /** `controller_factory`: the lower-cased kind is looked up. */
  function ControllerFactory(reg: Registry, cType: string, cData: JsonObject): (r: Result<Construction, ControlError>)
    ensures r.Success? ==> (Lower(cType), r.value.kind) in reg && r.value.args == cData
    ensures r.Failure? ==> r.error == UnknownKind(Lower(cType)) &&
                           forall i :: 0 <= i < |reg| ==> reg[i].0 != Lower(cType)
  {
    var cls :- Lookup(reg, Lower(cType)).ToResult(UnknownKind(Lower(cType)));
    Success(Construction(cls, cData))
  }

  /** The factory does not see case: a kind and its lower-cased form build
      the same thing. */
  lemma FactoryIgnoresCase(reg: Registry, cType: string, cData: JsonObject)
    ensures ControllerFactory(reg, cType, cData) == ControllerFactory(reg, Lower(cType), cData)
  {
    LowerIdempotent(cType);
  }

  /** A registered key that is not in lower case can never be reached. */
  lemma FactoryMissesUpperCaseKeys(reg: Registry, cType: string, cData: JsonObject, i: nat)
    requires DistinctKeys(reg) && i < |reg| && !IsLower(reg[i].0)
    ensures ControllerFactory(reg, cType, cData) != Success(Construction(reg[i].1, cData)) ||
            exists j :: 0 <= j < |reg| && j != i && reg[j].1 == reg[i].1
  {
  }

  /** The built-in kinds are found whatever the case of the request. */
  lemma FactoryFindsBuiltins(cType: string, cData: JsonObject)
    ensures Lower(cType) == "random" ==> ControllerFactory(Controllers, cType, cData) == Success(Construction(RandomController, cData))
    ensures Lower(cType) == "keyboard" ==> ControllerFactory(Controllers, cType, cData) == Success(Construction(KeyboardController, cData))
    ensures Lower(cType) == "tabular" ==> ControllerFactory(Controllers, cType, cData) == Success(Construction(TabularController, cData))
  {
  }

  // ---------------------------------------------------------------------------
  // The archive
  // ---------------------------------------------------------------------------

  /** The content of one archive entry: plain text, a JSON document, or
      bytes a controller kind wrote for itself. */
  datatype Entry = Text(text: string) | Document(doc: Json) | Blob(data: seq<bv8>)

  /** A zip archive, as the map from entry name to the entry `read` returns. */
  type Archive = map<string, Entry>

  const ClassEntry: string := "controller_class"
  const InfosEntry: string := "infos"

  /** A controller as the archive protocol sees it: its class, the entries
      its own `save_to_archive` writes, and its `infos` metadata. */
  datatype Controller = Controller(kind: ControllerClass, payload: Archive, infos: JsonObject)

  /** `copy()` then `update(...)`: a shallow merge where `over` wins. */
  function Merge(base: JsonObject, over: JsonObject): (r: JsonObject)
    ensures r.Keys == base.Keys + over.Keys
    ensures forall k :: k in over ==> r[k] == over[k]
    ensures forall k :: k in base && k !in over ==> r[k] == base[k]
  {
    base + over
  }

  /** The archive `save` writes: the class name first, then the
      controller's own entries, then `infos`. A later write of the same name
      is the one a later read sees. */
  function WriteArchive(name: string, payload: Archive, infos: JsonObject): (a: Archive)
    ensures a.Keys == payload.Keys + {ClassEntry, InfosEntry}
    ensures a[InfosEntry] == Document(JObject(infos))
    ensures ClassEntry !in payload ==> a[ClassEntry] == Text(name)
    ensures forall k :: k in payload && k != InfosEntry ==> a[k] == payload[k]
  {
    map[ClassEntry := Text(name)] + payload + map[InfosEntry := Document(JObject(infos))]
  }

  /** The `path` argument of `save`: a `str` or a `pathlib.Path`. */
  datatype PathArg = PathText(text: string) | PathObject(path: Path)

  /** What `save` leaves behind: the path it returns and the archive written there. */
  datatype Saved = Saved(path: Path, archive: Archive)

  /** The suffix handling of `save`: a `str` has no `.suffix`; a path keeps
      a `.zip` suffix and has any other replaced by it. */
  function SavePath(path: PathArg): (r: Result<Path, ControlError>)
    ensures r.Success? <==> path.PathObject? && path.path.name != ""
    ensures path.PathText? ==> r == Failure(PathWithoutSuffix)
    ensures r.Success? ==> Suffix(r.value.name) == Zip && r.value.parent == path.path.parent
    ensures r.Success? ==> Stem(r.value.name) == Stem(path.path.name)
    ensures r.Success? && Suffix(path.path.name) == Zip ==> r.value == path.path
  {
    match path
    case PathText(_) => Failure(PathWithoutSuffix)
    case PathObject(q) =>
      match NormaliseZip(q)
      case Success(n) => Success(n)
      case Failure(_) => Failure(EmptyPathName)
  }

  /** `save`: resolve the kind name, force the `.zip` suffix, write the
      archive with the merged `infos`. */
  function Save(reg: Registry, c: Controller, path: PathArg, infos: Option<JsonObject>): (r: Result<Saved, ControlError>)
    ensures r.Success? <==> ReverseLookup(reg, c.kind).Some? && SavePath(path).Success? && infos.Some?
    ensures ReverseLookup(reg, c.kind).None? ==> r == Failure(UnregisteredClass(c.kind))
    ensures ReverseLookup(reg, c.kind).Some? && SavePath(path).Failure? ==> r == Failure(SavePath(path).error)
    ensures ReverseLookup(reg, c.kind).Some? && SavePath(path).Success? && infos.None? ==>
              r == Failure(InfosNotMapping)
    ensures r.Success? ==> r.value.path == SavePath(path).value
    ensures r.Success? ==> r.value.archive.Keys == c.payload.Keys + {ClassEntry, InfosEntry}
    ensures r.Success? ==> forall k :: k in c.payload && k != InfosEntry ==> r.value.archive[k] == c.payload[k]
    ensures r.Success? && ClassEntry !in c.payload ==>
              r.value.archive[ClassEntry].Text? && (r.value.archive[ClassEntry].text, c.kind) in reg
    ensures r.Success? && ClassEntry !in c.payload ==>
              r.value.archive[ClassEntry] == Text(ReverseLookup(reg, c.kind).value)
    ensures r.Success? ==> r.value.archive[InfosEntry] == Document(JObject(Merge(c.infos, infos.value)))
  {
    var name :- ReverseLookup(reg, c.kind).ToResult(UnregisteredClass(c.kind));
    var p :- SavePath(path);
    if infos.None? then Failure(InfosNotMapping)
    else Success(Saved(p, WriteArchive(name, c.payload, Merge(c.infos, infos.value))))
  }

  /** Each kind's `load_from_archive`: it rebuilds the controller from the
      entries other than the two the generic protocol owns. */
  function KindLoad(cls: ControllerClass, archive: Archive): (c: Controller)
    ensures c.kind == cls
    ensures c.payload.Keys == archive.Keys - {ClassEntry, InfosEntry}
    ensures forall k :: k in c.payload ==> c.payload[k] == archive[k]
  {
    Controller(cls, archive - {ClassEntry, InfosEntry}, map[])
  }

  /** `load`: read the class name, rebuild through the registered kind, then
      replace its `infos` by the archive's. */
  function Load(reg: Registry, archive: Archive): (r: Result<Controller, ControlError>)
    ensures r.Success? ==> ClassEntry in archive && archive[ClassEntry].Text? &&
                           (archive[ClassEntry].text, r.value.kind) in reg
    ensures r.Success? ==> InfosEntry in archive && archive[InfosEntry] == Document(JObject(r.value.infos))
    ensures ClassEntry !in archive ==> r == Failure(MissingEntry(ClassEntry))
    ensures ClassEntry in archive && archive[ClassEntry].Text? && Lookup(reg, archive[ClassEntry].text).None? ==>
              r == Failure(UnknownKind(archive[ClassEntry].text))
    ensures ClassEntry in archive && archive[ClassEntry].Text? && Lookup(reg, archive[ClassEntry].text).Some? ==>
              (r.Success? <==> InfosEntry in archive && archive[InfosEntry].Document? && archive[InfosEntry].doc.JObject?)
  {
    if ClassEntry !in archive then Failure(MissingEntry(ClassEntry))
    else match archive[ClassEntry]
      case Text(name) =>
        var cls :- Lookup(reg, name).ToResult(UnknownKind(name));
        var c := KindLoad(cls, archive);
        if InfosEntry !in archive then Failure(MissingEntry(InfosEntry))
        else (match archive[InfosEntry]
          case Document(JObject(fields)) => Success(c.(infos := fields))
          case _ => Failure(MalformedEntry(InfosEntry)))
      case _ => Failure(MalformedEntry(ClassEntry))
  }

  /** Round trip: loading what `save` wrote gives back a controller of the
      same kind, with the same entries of its own, whose `infos` are its own
      with the caller's laid over them. */
  lemma {:induction false} SaveLoadRoundTrip(reg: Registry, c: Controller, path: PathArg, infos: JsonObject)
    requires DistinctKeys(reg)
    requires Save(reg, c, path, Some(infos)).Success?
    requires ClassEntry !in c.payload && InfosEntry !in c.payload
    ensures Load(reg, Save(reg, c, path, Some(infos)).value.archive) ==
            Success(Controller(c.kind, c.payload, Merge(c.infos, infos)))
  {
    var a := Save(reg, c, path, Some(infos)).value.archive;
    var name := ReverseLookup(reg, c.kind).value;
    assert a == WriteArchive(name, c.payload, Merge(c.infos, infos));
    ReverseLookupInverse(reg, c.kind);
    assert a - {ClassEntry, InfosEntry} == c.payload;
  }

  /** A controller of a kind the factory built keeps its kind through
      `save` and `load`. */
  lemma FactoryKindSurvivesArchive(reg: Registry, cType: string, cData: JsonObject, c: Controller, path: PathArg, infos: JsonObject)
    requires DistinctKeys(reg)
    requires ControllerFactory(reg, cType, cData).Success? && c.kind == ControllerFactory(reg, cType, cData).value.kind
    requires path.PathObject? && path.path.name != ""
    requires ClassEntry !in c.payload && InfosEntry !in c.payload
    ensures Save(reg, c, path, Some(infos)).Success?
    ensures Load(reg, Save(reg, c, path, Some(infos)).value.archive).Success?
    ensures Load(reg, Save(reg, c, path, Some(infos)).value.archive).value.kind == c.kind
  {
  }
}

=== FILE: decimal.dfy ===
/** Decimal digit strings: Python's `str.isdigit` (restricted to ASCII),
    `int(s)` on a digit string and `str(n)` on an integer. */
module Decimal {

  predicate IsDigit(c: char) {
    '0' <= c <= '9'
  }

  predicate AllDigits(s: string) {
    forall i :: 0 <= i < |s| ==> IsDigit(s[i])
  }

  function DigitValue(c: char): (d: nat)
    requires IsDigit(c)
    ensures d < 10
  {
    c as int - '0' as int
  }

  function DigitChar(d: nat): (c: char)
    requires d < 10
    ensures IsDigit(c) && DigitValue(c) == d
  {
    ('0' as int + d) as char
  }

  /** `int(s)` for a string of decimal digits (leading zeros allowed). */
  function ParseDecimal(s: string): nat
    requires AllDigits(s)
  {
    if |s| == 0 then 0 else 10 * ParseDecimal(s[..|s| - 1]) + DigitValue(s[|s| - 1])
  }

  /** `str(n)` for a non-negative integer: the shortest decimal numeral. */
  function NatToDecimal(n: nat): (s: string)
    ensures |s| > 0 && AllDigits(s)
    ensures |s| > 1 ==> s[0] != '0'
    ensures n < 10 <==> |s| == 1
  {
    if n < 10 then [DigitChar(n)] else NatToDecimal(n / 10) + [DigitChar(n % 10)]
  }

  /** `str(v)` for any integer: a minus sign precedes the magnitude. */
  function IntToString(v: int): (s: string)
    ensures |s| > 0
    ensures AllDigits(s) <==> v >= 0
    ensures v < 0 ==> s[0] == '-'
    ensures v >= 0 ==> ParseDecimal(s) == v
    ensures v < 0 ==> AllDigits(s[1..]) && ParseDecimal(s[1..]) == -v
  {
    if v < 0 then
      var s := "-" + NatToDecimal(-v);
      assert !IsDigit(s[0]);
      assert s[1..] == NatToDecimal(-v);
      ParseNatToDecimal(-v);
      s
    else
      ParseNatToDecimal(v);
      NatToDecimal(v)
  }

  /** Reading back what `str` wrote gives the same number. */
  lemma {:induction false} ParseNatToDecimal(n: nat)
    ensures ParseDecimal(NatToDecimal(n)) == n
  {
    var s := NatToDecimal(n);
    if n >= 10 {
      ParseNatToDecimal(n / 10);
      assert s[..|s| - 1] == NatToDecimal(n / 10);
    }
  }

  /** A numeral without a leading zero and of two or more digits denotes at least 10. */
  lemma {:induction false} ParseDecimalLowerBound(s: string)
    requires AllDigits(s) && |s| > 0 && s[0] != '0'
    ensures ParseDecimal(s) > 0
    ensures |s| > 1 ==> ParseDecimal(s) >= 10
  {
    if |s| > 1 {
      ParseDecimalLowerBound(s[..|s| - 1]);
    }
  }

  /** Writing back a canonical numeral that was read gives the same text. */
  lemma {:induction false} NatToDecimalParse(s: string)
    requires AllDigits(s) && |s| > 0
    requires |s| > 1 ==> s[0] != '0'
    ensures NatToDecimal(ParseDecimal(s)) == s
  {
    if |s| > 1 {
      var p := s[..|s| - 1];
      ParseDecimalLowerBound(s);
      NatToDecimalParse(p);
      assert s == p + [s[|s| - 1]];
    }
  }
}

=== FILE: json_values.dfy ===
/** JSON documents, as `json.dumps` writes them and `json.loads` reads them
    back. The text encoding itself is abstracted away: a document is stored
    and read as a value. */
module JsonValues {

  datatype Json =
    | JNull
    | JBool(b: bool)
    | JNumber(n: int)
    | JString(s: string)
    | JArray(items: seq<Json>)
    | JObject(fields: map<string, Json>)

  /** A Python `dict` with string keys and JSON-serialisable values. */
  type JsonObject = map<string, Json>
}

=== FILE: paths.dfy ===
/** The part of `pathlib` that `save` relies on: the final suffix of a path
    and `with_suffix`. */
module Paths {
  import opened Wrappers

  /** A path: its parent directory and its final component. */
  datatype Path = Path(parent: string, name: string)

  const Zip: string := ".zip"

  /** Index of the last '.' in `s`, or -1 when there is none. */
  function LastDot(s: string): (r: int)
    ensures -1 <= r < |s|
    ensures r >= 0 ==> s[r] == '.'
    ensures forall j :: r < j < |s| ==> s[j] != '.'
  {
    if |s| == 0 then -1
    else if s[|s| - 1] == '.' then |s| - 1
    else LastDot(s[..|s| - 1])
  }

  /** A suffix exists when the last dot is neither the first nor the last
      character of the name. */
  predicate HasSuffix(name: string) {
    var i := LastDot(name);
    0 < i < |name| - 1
  }

  /** `Path.suffix`: from the last dot on, or empty. */
  function Suffix(name: string): (r: string)
    ensures r == "" || (|r| >= 2 && r[0] == '.' && '.' !in r[1..])
  {
    if HasSuffix(name) then name[LastDot(name)..] else ""
  }

  /** `Path.stem`: the name without its suffix. */
  function Stem(name: string): (r: string)
    ensures r + Suffix(name) == name
  {
    if HasSuffix(name) then name[..LastDot(name)] else name
  }

  datatype PathError = EmptyName   // ValueError from `with_suffix` on an empty name

  /** `path.with_suffix(".zip")`. */
  function WithZipSuffix(p: Path): (r: Result<Path, PathError>)
    ensures r.Failure? <==> p.name == ""
    ensures r.Success? ==> r.value.parent == p.parent
    ensures r.Success? ==> Suffix(r.value.name) == Zip && Stem(r.value.name) == Stem(p.name)
  {
    if p.name == "" then Failure(EmptyName)
    else
      var n := Stem(p.name) + Zip;
      ZipSuffixOf(Stem(p.name));
      Success(Path(p.parent, n))
  }

  /** The two lines of `save` that force the `.zip` suffix: kept when
      present, replaced otherwise. */
  function NormaliseZip(p: Path): (r: Result<Path, PathError>)
    ensures r.Failure? <==> p.name == ""
    ensures r.Success? ==> r.value.parent == p.parent && Suffix(r.value.name) == Zip
    ensures r.Success? ==> Stem(r.value.name) == Stem(p.name)
    ensures Suffix(p.name) == Zip ==> r == Success(p)
  {
    if Suffix(p.name) != Zip then WithZipSuffix(p) else Success(p)
  }

  /** Normalising an already normalised path returns it unchanged. */
  lemma NormaliseZipIdempotent(p: Path)
    requires NormaliseZip(p).Success?
    ensures NormaliseZip(NormaliseZip(p).value) == NormaliseZip(p)
  {
  }

  /** Appending ".zip" to a non-empty stem gives a name whose suffix is
      ".zip" and whose stem is that stem. */
  lemma {:induction false} ZipSuffixOf(stem: string)
    requires stem != ""
    ensures Suffix(stem + Zip) == Zip && Stem(stem + Zip) == stem
  {
    var n := stem + Zip;
    var zi, z, dot := stem + ".zi", stem + ".z", stem + ".";
    assert n[..|n| - 1] == zi && zi[..|zi| - 1] == z && z[..|z| - 1] == dot;
    assert LastDot(dot) == |stem|;
    assert LastDot(z) == |stem|;
    assert LastDot(zi) == |stem|;
    assert LastDot(n) == |stem|;
    assert n[|stem|..] == Zip;
  }
}

=== FILE: robot.dfy ===
/** `Robot.BuildData`: the agent's configuration record and its compact
    string code (src/amaze/simu/robot.py). */
module Robot {
  import opened Wrappers
  import opened Decimal
  import opened AsciiCase
  import opened JsonValues
  import opened Types

  /** The controller key, or the `BaseBuildData.Unset` marker. */
  datatype ControlKey = Unset | Named(name: string)

  datatype BuildData = BuildData(
    inputs: InputType,
    outputs: OutputType,
    vision: int,
    control: ControlKey,
    controlData: Option<JsonObject>)

  const DefaultVision: int := 15
  const DefaultControl: string := "random"

  /** The record `cls()` builds: every field at its declared default. */
  function Default(): BuildData {
    BuildData(InputType.DISCRETE, OutputType.DISCRETE, DefaultVision, Named(DefaultControl), Some(map[]))
  }

  /** The (DISCRETE input, CONTINUOUS output) combination no agent may have. */
  predicate IsHybrid(i: InputType, o: OutputType) {
    i == InputType.DISCRETE && o == OutputType.CONTINUOUS
  }

  // ---------------------------------------------------------------------------
  // Construction
  // ---------------------------------------------------------------------------

  /** `__post_init__`: a named controller key is stored lower-cased; the
      Unset marker and every other field are left alone. */
  function PostInit(b: BuildData): (r: BuildData)
    ensures r.inputs == b.inputs && r.outputs == b.outputs && r.vision == b.vision
    ensures r.controlData == b.controlData
    ensures r.control.Unset? <==> b.control.Unset?
    ensures r.control.Named? ==> IsLower(r.control.name) && |r.control.name| == |b.control.name|
    ensures r.control.Named? ==>
              forall i :: 0 <= i < |r.control.name| ==> LowerChar(r.control.name[i]) == LowerChar(b.control.name[i])
    ensures b.control.Named? && IsLower(b.control.name) ==> r == b
  {
    match b.control
    case Unset => b
    case Named(n) =>
      b.(control := Named(Lower(n)))
  }

  /** Running the post-initialisation twice changes nothing more. */
  lemma PostInitIdempotent(b: BuildData)
    ensures PostInit(PostInit(b)) == PostInit(b)
  {
  }

  /** `cls()` is already in post-initialised form. */
  lemma DefaultIsInitialised()
    ensures PostInit(Default()) == Default()
  {
  }

  // ---------------------------------------------------------------------------
  // The string code
  // ---------------------------------------------------------------------------

  /** Why `from_string` rejects a code. */
  datatype CodeError =
    | MissingChar(index: nat)       // IndexError on robot[0] or robot[1]
    | BadFirstChar                  // first assertion
    | BadSecondChar                 // second assertion
    | NonDigitTail                  // third assertion
    | UnknownLetter(letter: char)   // KeyError in the letter-to-type table
    | HybridMode                    // "Incompatible hybrid mode"
    | EvenRetina                    // "Retina size must be odd"

  predicate IsTypeLetter(c: char) {
    c == 'D' || c == 'C'
  }

  predicate IsShorthandLetter(c: char) {
    c == 'D' || c == 'C' || c == 'H'
  }

  /** The shorthand table: D, H and C stand for DD, CD and CC. */
  function Shorthand(c: char): (InputType, OutputType)
    requires IsShorthandLetter(c)
  {
    if c == 'D' then (InputType.DISCRETE, OutputType.DISCRETE)
    else if c == 'H' then (InputType.CONTINUOUS, OutputType.DISCRETE)
    else (InputType.CONTINUOUS, OutputType.CONTINUOUS)
  }

  /** The two-letter form: each letter is looked up in its type's table. */
  function PairTypes(i: char, o: char): (r: Result<(InputType, OutputType), CodeError>)
    ensures r.Success? ==> r.value.0.Letter() == i && r.value.1.Letter() == o
    ensures r.Success? ==> !IsHybrid(r.value.0, r.value.1)
    ensures r.Success? <==> InputOfLetter(i).Some? && OutputOfLetter(o).Some? &&
                            !IsHybrid(InputOfLetter(i).value, OutputOfLetter(o).value)
    ensures InputOfLetter(i).None? ==> r == Failure(UnknownLetter(i))
    ensures InputOfLetter(i).Some? && OutputOfLetter(o).None? ==> r == Failure(UnknownLetter(o))
    ensures (InputOfLetter(i).Some? && OutputOfLetter(o).Some? &&
             IsHybrid(InputOfLetter(i).value, OutputOfLetter(o).value)) ==> r == Failure(HybridMode)
  {
    var inT :- InputOfLetter(i).ToResult(UnknownLetter(i));
    var outT :- OutputOfLetter(o).ToResult(UnknownLetter(o));
    if IsHybrid(inT, outT) then Failure(HybridMode) else Success((inT, outT))
  }

  /** `from_string`: parses `IO[V]` or `S[V]`. The checks run in the order of
      the source, so the first one violated names the failure. */
  function FromString(s: string): (r: Result<BuildData, CodeError>)
    ensures |s| < 2 ==> r.Failure?
    ensures r.Success? ==> WellFormedCode(s)
    ensures r.Success? ==> !IsHybrid(r.value.inputs, r.value.outputs)
    ensures r.Success? ==> r.value.vision > 0 && r.value.vision % 2 == 1
    ensures r.Success? ==> r.value.control == Default().control && r.value.controlData == Default().controlData
    ensures r.Success? && r.value.inputs == InputType.DISCRETE ==> r.value.vision == DefaultVision
  {
    if |s| == 0 then Failure(MissingChar(0))
    else if !IsShorthandLetter(s[0]) then Failure(BadFirstChar)
    else if |s| == 1 then Failure(MissingChar(1))
    else if !(IsTypeLetter(s[1]) || IsDigit(s[1])) then Failure(BadSecondChar)
    else if !AllDigits(s[2..]) then Failure(NonDigitTail)
    else
      // s[1] is a letter exactly when it is D or C: then the code is a pair.
      var ix := if IsTypeLetter(s[1]) then 2 else 1;
      var types :- if ix == 1 then Success(Shorthand(s[0])) else PairTypes(s[0], s[1]);
      var bd := Default().(inputs := types.0, outputs := types.1);
      // `ix < len(robot) > 2` is the chained comparison `ix < len and len > 2`.
      if bd.inputs == InputType.CONTINUOUS && ix < |s| && |s| > 2 then
        var v := ParseDecimal(s[ix..]);
        if v % 2 != 1 then Failure(EvenRetina) else Success(bd.(vision := v))
      else Success(bd)
  }

  /** The three assertions at the head of `from_string`, with the reads of
      `robot[0]` and `robot[1]` that precede them. */
  ghost predicate WellFormedCode(s: string) {
    && |s| >= 2
    && IsShorthandLetter(s[0])
    && (IsTypeLetter(s[1]) || IsDigit(s[1]))
    && AllDigits(s[2..])
  }

  /** `to_string`: input letter, output letter, then the decimal vision for
      continuous input only. */
  function ToString(b: BuildData): (s: string)
    ensures |s| >= 2 && s[0] == b.inputs.Letter() && s[1] == b.outputs.Letter()
    ensures |s| > 2 <==> b.inputs == InputType.CONTINUOUS
    ensures b.inputs == InputType.CONTINUOUS ==> s[2..] == IntToString(b.vision)
  {
    var s := [b.inputs.Letter(), b.outputs.Letter()];
    if b.inputs == InputType.CONTINUOUS then s + IntToString(b.vision) else s
  }

  // ---------------------------------------------------------------------------
  // Properties of the code
  // ---------------------------------------------------------------------------

  /** A declarative statement of which codes `from_string` accepts: well
      formed, not `H` followed by a letter, not the hybrid pair `DC`, and an
      odd vision whenever the vision digits are read. Those digits are read
      for continuous input (first letter C or H) once the code is longer than
      two characters; they start after the type letters. */
  ghost predicate Accepted(s: string) {
    && WellFormedCode(s)
    && !(s[0] == 'H' && IsTypeLetter(s[1]))
    && !(s[0] == 'D' && s[1] == 'C')
    && (s[0] != 'D' && |s| > 2 ==>
          AllDigits(VisionDigits(s)) && ParseDecimal(VisionDigits(s)) % 2 == 1)
  }

  /** The digits that may carry the vision: everything after the type letters. */
  ghost function VisionDigits(s: string): string
    requires WellFormedCode(s)
  {
    if IsTypeLetter(s[1]) then s[2..] else s[1..]
  }

  /** The types an accepted code names: the shorthand table when a digit
      follows the first letter, the two letter tables otherwise. */
  ghost function DecodedTypes(s: string): (InputType, OutputType)
    requires Accepted(s)
  {
    if IsDigit(s[1]) then Shorthand(s[0])
    else (InputOfLetter(s[0]).value, OutputOfLetter(s[1]).value)
  }

  /** The vision an accepted code names: its digits for continuous input and
      a code longer than two characters, the default otherwise. */
  ghost function DecodedVision(s: string): int
    requires Accepted(s)
  {
    if DecodedTypes(s).0 == InputType.CONTINUOUS && |s| > 2 then ParseDecimal(VisionDigits(s))
    else DefaultVision
  }

  /** What `from_string` returns, for every input: the accepted codes decode
      to the types and vision they name, and every other code fails. */
  lemma FromStringDecodes(s: string, b: BuildData)
    ensures FromString(s) == Success(b) <==>
              Accepted(s) && b == Default().(inputs := DecodedTypes(s).0, outputs := DecodedTypes(s).1,
                                             vision := DecodedVision(s))
  {
  }

  /** Three longer codes, decoded: a shorthand with vision digits, a
      shorthand with hybrid output, and a pair with leading zeros. */
  lemma DecodingExamples()
    ensures FromString("C13") == Success(Default().(inputs := InputType.CONTINUOUS, outputs := OutputType.CONTINUOUS, vision := 13))
    ensures FromString("H13") == Success(Default().(inputs := InputType.CONTINUOUS, outputs := OutputType.DISCRETE, vision := 13))
    ensures FromString("CD007") == Success(Default().(inputs := InputType.CONTINUOUS, outputs := OutputType.DISCRETE, vision := 7))
  {
    assert "C13"[1..] == "13" && "13"[..1] == "1";
    assert ParseDecimal("13") == 13;
    assert "CD007"[2..] == "007" && "007"[..2] == "00" && "00"[..1] == "0";
  }

  /** `from_string` succeeds exactly on the accepted codes. */
  lemma FromStringAccepts(s: string)
    ensures FromString(s).Success? <==> Accepted(s)
  {
  }

  /** Round trip: `from_string(to_string(b))` gives back the types of any
      non-hybrid record whose continuous vision is a positive odd number;
      the vision survives for continuous input and reverts to the default
      for discrete input. */
  lemma FromStringToString(b: BuildData)
    requires !IsHybrid(b.inputs, b.outputs)
    requires b.inputs == InputType.CONTINUOUS ==> b.vision > 0 && b.vision % 2 == 1
    ensures FromString(ToString(b)) == Success(Default().(
      inputs := b.inputs,
      outputs := b.outputs,
      vision := if b.inputs == InputType.CONTINUOUS then b.vision else DefaultVision))
  {
  }

  /** Every record `from_string` produces is a fixed point of the round trip. */
  lemma FromStringCanonical(s: string, b: BuildData)
    requires FromString(s) == Success(b)
    ensures FromString(ToString(b)) == Success(b)
  {
  }

  /** The canonical codes: the explicit two-letter form, vision digits
      exactly for continuous input, and no leading zero in them. */
  ghost predicate Canonical(s: string) {
    && Accepted(s)
    && IsTypeLetter(s[1])
    && (s[0] == 'D' ==> |s| == 2)
    && (s[0] == 'C' ==> |s| > 2 && (|s| > 3 ==> s[2] != '0'))
  }

  /** The other direction of the round trip: a canonical code is parsed
      and written back to the same text. */
  lemma {:induction false} ToStringFromString(s: string)
    requires Canonical(s)
    ensures FromString(s).Success? && ToString(FromString(s).value) == s
  {
    var b := Default().(inputs := DecodedTypes(s).0, outputs := DecodedTypes(s).1, vision := DecodedVision(s));
    FromStringDecodes(s, b);
    if s[0] == 'C' {
      var digits := s[2..];
      assert VisionDigits(s) == digits;
      NatToDecimalParse(digits);
      assert IntToString(b.vision) == digits;
      assert s == [s[0], s[1]] + digits;
    } else {
      assert s == [s[0], s[1]];
    }
  }

  /** The pair `DC` followed by any digits is always the hybrid error. */
  lemma HybridPairFails(digits: string)
    requires AllDigits(digits)
    ensures FromString("DC" + digits) == Failure(HybridMode)
  {
  }

  /** `H` in the pair position is not in the input letter table. */
  lemma HPairFails(s: string)
    requires WellFormedCode(s) && s[0] == 'H' && IsTypeLetter(s[1])
    ensures FromString(s) == Failure(UnknownLetter('H'))
  {
  }

  /** A two-character shorthand maps through the shorthand table and keeps
      the default vision, whatever its digit. */
  lemma ShortShorthandKeepsVision(c: char, d: char)
    requires IsShorthandLetter(c) && IsDigit(d)
    ensures FromString([c, d]) == Success(Default().(inputs := Shorthand(c).0, outputs := Shorthand(c).1))
  {
  }

  /** Digits after a discrete-input code are checked but ignored. */
  lemma DiscreteIgnoresDigits(s: string)
    requires WellFormedCode(s) && s[0] == 'D' && !(s[1] == 'C')
    ensures FromString(s) == Success(Default())
  {
  }

  /** Once the vision digits are read, an even number (0 included) is refused. */
  lemma EvenVisionFails(s: string)
    requires WellFormedCode(s) && s[0] != 'D' && |s| > 2 && !(s[0] == 'H' && IsTypeLetter(s[1]))
    requires AllDigits(VisionDigits(s)) && ParseDecimal(VisionDigits(s)) % 2 == 0
    ensures FromString(s) == Failure(EvenRetina)
  {
  }

  // ---------------------------------------------------------------------------
  // Building from a controller
  // ---------------------------------------------------------------------------

  /** Why `from_controller` refuses a controller. */
  datatype ControllerError =
    | MoreThanOneInputType     // "Controller can handle more than one input type"
    | MoreThanOneOutputType
    | NoInputType              // IndexError on i[0]
    | NoOutputType             // IndexError on o[0]

  /** `from_controller`: takes the controller's single input and output type;
      a reported vision replaces the default only for continuous input. */
  function FromController(c: Capabilities): (r: Result<BuildData, ControllerError>)
    ensures r.Success? <==> |c.inputs| == 1 && |c.outputs| == 1
    ensures |c.inputs| > 1 ==> r == Failure(MoreThanOneInputType)
    ensures |c.inputs| == 0 ==> r == Failure(NoInputType)
    ensures |c.inputs| == 1 && |c.outputs| > 1 ==> r == Failure(MoreThanOneOutputType)
    ensures |c.inputs| == 1 && |c.outputs| == 0 ==> r == Failure(NoOutputType)
    ensures r.Success? ==> r.value.inputs == c.inputs[0] && r.value.outputs == c.outputs[0]
    ensures r.Success? ==> r.value.control == Default().control && r.value.controlData == Default().controlData
    ensures r.Success? && r.value.vision != DefaultVision ==>
              r.value.inputs == InputType.CONTINUOUS && c.vision == Some(r.value.vision)
    ensures r.Success? && c.inputs[0] == InputType.CONTINUOUS && c.vision.Some? ==> r.value.vision == c.vision.value
  {
    if |c.inputs| > 1 then Failure(MoreThanOneInputType)
    else if |c.inputs| == 0 then Failure(NoInputType)
    else if |c.outputs| > 1 then Failure(MoreThanOneOutputType)
    else if |c.outputs| == 0 then Failure(NoOutputType)
    else
      var bd := Default().(inputs := c.inputs[0], outputs := c.outputs[0]);
      if bd.inputs == InputType.CONTINUOUS && c.vision.Some? then Success(bd.(vision := c.vision.value))
      else Success(bd)
  }

  /** `from_controller` checks neither the hybrid combination nor the parity
      of the vision, so it can build a record whose own code `from_string`
      refuses. */
  lemma FromControllerCanBeHybrid()
    ensures var r := FromController(Capabilities([InputType.DISCRETE], [OutputType.CONTINUOUS], None));
            r.Success? && FromString(ToString(r.value)) == Failure(HybridMode)
  {
  }
}

=== FILE: types.dfy ===
/** The input and output types of an agent, and what a controller reports it
    can handle (amaze.simu.types and the controller capability protocol). */
module Types {
  import opened Wrappers

  datatype InputType = DISCRETE | CONTINUOUS {
    /** The enum member's `name`. */
    function Name(): string {
      match this
      case DISCRETE => "DISCRETE"
      case CONTINUOUS => "CONTINUOUS"
    }

    /** The code letter: the first character of the name. */
    function Letter(): char {
      Name()[0]
    }
  }

  datatype OutputType = DISCRETE | CONTINUOUS {
    function Name(): string {
      match this
      case DISCRETE => "DISCRETE"
      case CONTINUOUS => "CONTINUOUS"
    }

    function Letter(): char {
      Name()[0]
    }
  }

  /** The inverse of the input letter table: which input type a letter names. */
  function InputOfLetter(c: char): (r: Option<InputType>)
    ensures forall t: InputType :: r == Some(t) <==> t.Letter() == c
  {
    if c == InputType.DISCRETE.Letter() then Some(InputType.DISCRETE)
    else if c == InputType.CONTINUOUS.Letter() then Some(InputType.CONTINUOUS)
    else None
  }

  /** The inverse of the output letter table. */
  function OutputOfLetter(c: char): (r: Option<OutputType>)
    ensures forall t: OutputType :: r == Some(t) <==> t.Letter() == c
  {
    if c == OutputType.DISCRETE.Letter() then Some(OutputType.DISCRETE)
    else if c == OutputType.CONTINUOUS.Letter() then Some(OutputType.CONTINUOUS)
    else None
  }

  /** What a controller (or controller class) reports through
      `inputs_types()`, `outputs_types()` and `vision()`. */
  datatype Capabilities = Capabilities(
    inputs: seq<InputType>,
    outputs: seq<OutputType>,
    vision: Option<int>)
}

=== FILE: wrappers.dfy ===
/** Failure-compatible wrappers used to model the exceptions of the source:
    every Python `raise`, failed `assert`, `KeyError` or `IndexError` becomes a
    `Failure` carrying a reason. */
module Wrappers {

  /** A value that may be absent (Python's `None`). */
  datatype Option<+T> = None | Some(value: T) {

    predicate IsFailure() {
      None?
    }

    function PropagateFailure<U>(): Option<U>
      requires None?
    {
      None
    }

    function Extract(): T
      requires Some?
    {
      value
    }

    /** Turns an absent value into a failure with the given reason. */
    function ToResult<E>(error: E): Result<T, E> {
      match this
      case Some(v) => Success(v)
      case None => Failure(error)
    }
  }

  /** The outcome of a call that either returns a value or raises. */
  datatype Result<+R, +E> = Success(value: R) | Failure(error: E) {

    predicate IsFailure() {
      Failure?
    }

    function PropagateFailure<U>(): Result<U, E>
      requires Failure?
    {
      Failure(error)
    }

    function Extract(): R
      requires Success?
    {
      value
    }
  }
}
